=== FILE: README.md ===
# Cancer immunoediting simulation — a Dafny model of the simulation core

The program is a discrete-time agent simulation on a 30x30 landscape. A
population of tissue cells lives on two resource landscapes, glucose and
oxygen. Every step of `main`'s loop:

- moves every cell by at most one unit per axis inside the walls, at an energy cost;
- splits every cell that may divide and holds more than 30 energy, with the newborns appended after all originals;
- lets every cell metabolize at its position:
  - a normal cell uses one unit of glucose and one of oxygen for 10 energy;
  - a cancer cell uses one unit of glucose for 1 energy;
- erases the cells whose energy fell to 0 or below;
- lets every cell mutate from normal to cancer with probability 15.4 %;
- regenerates both landscapes by 0.1 at every entry that is at most its capacity minus 0.1.

A `StepKeeper` counts the steps up to 5000.

The model follows the objects of `main.cpp`:

- `Landscape`: the grid and its bounds test.
- `Randomness`: the arithmetic of the `Random` singleton, on raw draws.
- `CellRules`: a cell as a value and the rules of movement, metabolism, mutation and division.
- `Cells`: the `Cell` object, whose fields change in place.
- `Scapes`: the two resource landscapes, one class over a flat array.
- `Steps`: `StepKeeper`.
- `Phases`: one step of the main loop on values (`StepWorld`), the run of n steps (`RunWorld`), and the simulation invariant `WorldValid`.
- `Simulation`: the population vector and both landscapes as a class.
  - Its phase methods are loops over `seq<Cell>` and the scape arrays, each proved equal to its phase in `Phases`.
  - `Step` is proved to be `StepWorld`, and `Run` to be `RunWorld` over MAX_STEP steps.

Random draws are parameters:

- A move is a `MoveDraw`: the outcomes of `randomBool` and `randomSign` for each axis.
- A mutation draw `fires` is the outcome of `probability(CELL_MUTATION_RATE)`.
- The initial placement takes the raw `rand()` values passed to `uniformInt`.
- Over a run, step s uses `moves(s)` and `fires(s)`, indexed by the position of the cell in the vector.

## Model

| member | source | states |
|---|---|---|
| Landscape.ExistingPointIsInRectangle | CancerImmunoediting/src/main.cpp:730-736 | the four guards accept exactly the points with 0 <= x < WIDTH and 0 <= y < HEIGHT |
| Landscape.Index | CancerImmunoediting/src/main.cpp:213-217 | entry `[y][x]` of the row-major HEIGHT x WIDTH map lies inside the flat grid for every existing point; `Scapes.Scape.Material` and `SetMaterial` read and write through it |
| Landscape.IndexInjective | CancerImmunoediting/src/main.cpp:213-217 | two existing points share a grid entry only when they are the same point |
| Randomness.TruncRem | CancerImmunoediting/src/main.cpp:143 | C++ `%`: a non-negative dividend leaves a remainder in [0, abs(divisor)), and a negative one leaves a remainder in (-abs(divisor), 0] |
| Randomness.UniformInt | CancerImmunoediting/src/main.cpp:142-145 | for a non-negative raw draw the result lies in [min, max], and a raw draw already inside the range is shifted by min unchanged |
| Randomness.RandomDouble | CancerImmunoediting/src/main.cpp:141 | the result lies strictly between 0 and 1 |
| Randomness.UniformDouble | CancerImmunoediting/src/main.cpp:146-148 | the result lies strictly between min and max |
| Randomness.Probability | CancerImmunoediting/src/main.cpp:149-152 | a percentage of 0 or less never fires, and one of 100 or more always fires |
| Randomness.Sign | CancerImmunoediting/src/main.cpp:154 | `randomSign` is -1 or +1 |
| Randomness.Delta | CancerImmunoediting/src/main.cpp:296-297 | a proposed axis step has magnitude 1 when `randomBool` fired and 0 otherwise |
| CellRules.MobileMove | CancerImmunoediting/src/main.cpp:291-304 | an in-bounds position stays in bounds; the distance is the Manhattan distance covered and at most 2; an accepted target costs the number of stepping axes; an out-of-bounds target leaves the position unchanged with distance 0 |
| CellRules.MoveCell | CancerImmunoediting/src/main.cpp:341-345 | a moved cell keeps its phenotype and count, stays on the grid, and loses exactly the distance covered, between 0 and 2 |
| CellRules.UptakeProperties | CancerImmunoediting/src/main.cpp:384-447 | metabolism never makes a non-negative quantity negative or larger, and never lowers energy; a cancer cell never touches oxygen; energy gained is 10 per unit of glucose for a normal cell (which uses equal glucose and oxygen) and 1 per unit for a cancer cell |
| CellRules.UptakeSucceeds | CancerImmunoediting/src/main.cpp:398-442 | `UptakeOf` dispatches to `NormalUptake` or `CancerUptake` by phenotype; energy rises exactly when glucose >= 1 and, for a normal cell, oxygen >= 1; then a normal cell gains 10 and uses one unit of each, and a cancer cell gains 1 and uses one unit of glucose; otherwise nothing changes |
| CellRules.Mutated | CancerImmunoediting/src/main.cpp:774-783 | only the phenotype can change; it changes exactly when the draw fires on a normal cell; a cancer cell stays cancerous |
| CellRules.MutationRatchet | CancerImmunoediting/src/main.cpp:766-783 | after any series of draws a cell is cancerous exactly when it was already or some draw fired, and its other fields are unchanged |
| CellRules.DivisionSplit | CancerImmunoediting/src/main.cpp:560-579 | `Parent` and `Child`, the two cells a division leaves: they share position and phenotype and each hold half the prior energy, so the two sum to it; the child counts 0 and the parent one more; a normal parent never passes MAX_CELL_DIVISION_COUNT |
| CellRules.DivisionEligibility | CancerImmunoediting/src/main.cpp:790-799 | `CanDivision` (and `Cells.Cell.CanDivide`, which applies it to a cell object) holds for every cancer cell, and for a normal cell exactly when its count is below MAX_CELL_DIVISION_COUNT |
| Cells.Cell.constructor | CancerImmunoediting/src/main.cpp:759-764 | a new cell at the given position is normal, holds INITIAL_CELL_ENERGY and has divided 0 times |
| Cells.Cell.SetEnergy | CancerImmunoediting/src/main.cpp:326 | only the energy changes, to the given value |
| Cells.Cell.IncrementDivisionCount | CancerImmunoediting/src/main.cpp:336 | only the division count changes, by one |
| Cells.Cell.ChangeState | CancerImmunoediting/src/main.cpp:766-768 | only the phenotype changes, to cancer |
| Cells.Cell.Move | CancerImmunoediting/src/main.cpp:341-345 | the cell's new value is `MoveCell` of its old one; the returned distance is the mobile move's distance and is charged to the energy |
| Cells.Cell.Metabolize | CancerImmunoediting/src/main.cpp:398-442 | the cell's energy and the glucose and oxygen entries at its own position become the uptake of its phenotype; every other grid entry and every other field is unchanged |
| Cells.Cell.Mutate | CancerImmunoediting/src/main.cpp:774-783 | the cell's new value is `Mutated` of its old one |
| Scapes.Regenerated | CancerImmunoediting/src/main.cpp:207-209 | an entry at most at capacity stays at most at capacity and never decreases; it grows by exactly the increment iff it was at most capacity minus the increment, and otherwise stays put |
| Scapes.Regenerate | CancerImmunoediting/src/main.cpp:204-212 | regeneration keeps the grid size, keeps every entry within [0, capacity], and decreases no entry |
| Scapes.RegenerationIsQuantized | CancerImmunoediting/src/main.cpp:204-212 | left alone for n steps, an entry either grows by exactly n increments or ends in the top band (capacity - increment, capacity]; it never exceeds capacity, so the approach is quantized and never clamped |
| Scapes.TopBandIsStable | CancerImmunoediting/src/main.cpp:236-244 | an entry in the top band is never regenerated again |
| Scapes.Scape.constructor | CancerImmunoediting/src/main.cpp:196-203 | every entry of a new landscape starts at 5 |
| Scapes.Scape.SetMaterial | CancerImmunoediting/src/main.cpp:215 | only entry `[y][x]` changes, to the given value |
| Scapes.Scape.Generate | CancerImmunoediting/src/main.cpp:204-212 | the nested loops leave the grid equal to `Regenerate` of the old grid |
| Steps.IntervalIsPeriodic | CancerImmunoediting/src/main.cpp:751-754 | an interval of n > 0 holds on the multiples of n and on no step in between; an interval of 1 holds on every step |
| Steps.StepKeeper.constructor | CancerImmunoediting/src/main.cpp:474 | the keeper starts at step 0 with maximum 0 |
| Steps.StepKeeper.SetMaxStep | CancerImmunoediting/src/main.cpp:462 | only the maximum changes |
| Steps.StepKeeper.Proceed | CancerImmunoediting/src/main.cpp:465 | the step advances by one |
| Steps.StepKeeper.Loop | CancerImmunoediting/src/main.cpp:746-750 | the step advances by one, and the result is true exactly when the new step is at most the maximum |
| Phases.MoveAll | CancerImmunoediting/src/main.cpp:538-542 | the move phase keeps the population size, the cells on the grid and the simulation invariant on the cells |
| Phases.MoveAllEffect | CancerImmunoediting/src/main.cpp:538-542 | moving keeps every cell's phenotype and never adds energy |
| Phases.Parents | CancerImmunoediting/src/main.cpp:551-580 | the originals after division are as many as before |
| Phases.Children | CancerImmunoediting/src/main.cpp:551-580 | there are at most as many newborns as originals, and newborns of cells on the grid are on the grid |
| Phases.ChildrenAreNewborn | CancerImmunoediting/src/main.cpp:562-577 | every newborn has divided 0 times |
| Phases.DivideAll | CancerImmunoediting/src/main.cpp:551-581 | the originals keep their places, in order, with the newborns appended after all of them; the population at most doubles; the grid and the division cap are kept |
| Phases.DivisionGrowth | CancerImmunoediting/src/main.cpp:551-581 | the population grows by exactly the number of dividing originals, and newborn k is the child of the k-th dividing original, in parent order |
| Phases.DivisionConservesEnergy | CancerImmunoediting/src/main.cpp:560-577 | division neither creates nor loses energy: the population's total energy is unchanged |
| Phases.MetabolizeAll | CancerImmunoediting/src/main.cpp:587-590 | cells metabolize in population order, each on the grids the cells before it left; population size, grid sizes and the invariant are kept |
| Phases.MetabolizeAllEffect | CancerImmunoediting/src/main.cpp:587-590 | each cell keeps everything but its energy, which never falls; no grid entry grows or turns negative; an all-cancer population leaves oxygen untouched |
| Phases.Survivors | CancerImmunoediting/src/main.cpp:595-601 | removal never grows the population |
| Phases.SurvivorsAlive | CancerImmunoediting/src/main.cpp:595-601 | every survivor holds energy above 0, and survivors stay on the grid and within the division cap |
| Phases.SurvivorsAppend | CancerImmunoediting/src/main.cpp:595-601 | removal works piece by piece, so the survivors keep their relative order |
| Phases.SurvivorsCount | CancerImmunoediting/src/main.cpp:595-601 | a cell survives exactly when its energy is above 0, as often as it occurred |
| Phases.MutateAll | CancerImmunoediting/src/main.cpp:606-609 | the mutation phase keeps the population size, the grid and the division cap |
| Phases.MutateAllEffect | CancerImmunoediting/src/main.cpp:606-609 | mutation changes no cell's position, energy or count, and a cancer cell stays cancerous |
| Phases.StepWorld | CancerImmunoediting/src/main.cpp:538-613 | a step keeps both grids full-size and every cell on the grid |
| Phases.StepPreservesValid | CancerImmunoediting/src/main.cpp:538-613 | a step keeps the simulation invariant: cells on the grid, normal cells within the division cap, every grid entry within [0, capacity] |
| Phases.StepLeavesLiving | CancerImmunoediting/src/main.cpp:595-609 | after a step every cell holds energy above the death threshold |
| Phases.RunWorld | CancerImmunoediting/src/main.cpp:530-613 | any number of steps keeps the grids full-size and the cells on the grid |
| Phases.RunPreservesValid | CancerImmunoediting/src/main.cpp:530-613 | the simulation invariant holds after any number of steps, whatever is drawn |
| Phases.SeededWorldValid | CancerImmunoediting/src/main.cpp:517-527 | the initial world (grids at 5, normal cells with initial energy on the grid) satisfies the simulation invariant |
| Simulation.Divide | CancerImmunoediting/src/main.cpp:560-579 | the dividing origin becomes `Parent` of its old value and the fresh newborn becomes `Child` of it |
| Simulation.Divisions | CancerImmunoediting/src/main.cpp:551-580 | each original becomes its value after division; the pending list holds fresh, distinct newborns, which are exactly the children of the originals in parent order |
| Simulation.EraseDead | CancerImmunoediting/src/main.cpp:595-601 | the erase-or-step-past walk leaves exactly the survivors, in their original order, with no cell repeated; survivor k is the original cell object at position idx[k], with idx strictly increasing |
| Simulation.PlaceCells | CancerImmunoediting/src/main.cpp:522-527 | CELL_SIZE fresh, distinct normal cells with initial energy; cell k sits at the point that `uniformInt` gives for its raw draws |
| Simulation.Simulation.constructor | CancerImmunoediting/src/main.cpp:517-527 | the set-up yields the seeded initial world, with cell k placed from its raw draws, and every cell and both grid arrays are newly allocated |
| Simulation.Simulation.MoveCells | CancerImmunoediting/src/main.cpp:538-542 | the population after the loop is `MoveAll` of the one before; the grids are unchanged |
| Simulation.Simulation.DivideCells | CancerImmunoediting/src/main.cpp:551-581 | the population after the loop and the append is `DivideAll` of the one before; the grids are unchanged |
| Simulation.Simulation.MetabolizeCells | CancerImmunoediting/src/main.cpp:587-590 | the population and both grids after the loop are `MetabolizeAll` of those before |
| Simulation.Simulation.RemoveDeadCells | CancerImmunoediting/src/main.cpp:595-601 | the population becomes `Survivors` of the one before; the grids are unchanged |
| Simulation.Simulation.MutateCells | CancerImmunoediting/src/main.cpp:606-609 | the population after the loop is `MutateAll` of the one before; the grids are unchanged |
| Simulation.Simulation.GenerateMaterials | CancerImmunoediting/src/main.cpp:612-613 | both grids become `Regenerate` of themselves with their own capacity and increment; the cells are unchanged |
| Simulation.Simulation.Grow | CancerImmunoediting/src/main.cpp:538-590 | move, divide and metabolize, composed in the source's order |
| Simulation.Simulation.Turnover | CancerImmunoediting/src/main.cpp:595-613 | remove, mutate and regenerate, composed in the source's order |
| Simulation.Simulation.Step | CancerImmunoediting/src/main.cpp:538-613 | one pass of the loop body turns the world into `StepWorld` of it |
| Simulation.Simulation.Iterate | CancerImmunoediting/src/main.cpp:530-613 | a pass of the loop body after `done` steps reaches the next world of the run, and the keeper reports whether another step remains |
| Simulation.Simulation.RunSteps | CancerImmunoediting/src/main.cpp:530-640 | the keeper-driven loop passes through every world of the run and ends at the world after MAX_STEP steps |
| Simulation.Simulate | CancerImmunoediting/src/main.cpp:509-644 | `main` without output: the run starts from the seeded world with CELL_SIZE cells, cell k at `UniformInt` of rawX(k) and rawY(k); MAX_STEP steps end at `RunWorld` of it, and the simulation's invariant holds at the end |
| Simulation.Simulation.Run | CancerImmunoediting/src/main.cpp:512-640 | with a keeper limited to MAX_STEP, the world ends as `RunWorld` of the initial one, and a valid initial world stays valid |

## Left out

- Randomness.UniformDouble: takes integer bounds where the source takes `double` bounds and casts `min` and `max - 1` to `int` (main.cpp:146-147); the only caller passes 0 and 100 (main.cpp:150), so no case is lost.
- Terminal escape and debug macros (main.cpp:28-81), `ECHO` and the periodic `DEBUG` of the step number (main.cpp:510, 532-534): console output only.
- The per-step output (main.cpp:615-639) and the output functions (main.cpp:649-724): file I/O. This includes the normal and cancer cell counts and the int-truncating energy average.
- `Random` internals (main.cpp:137-158): `rand()`, `srand(time(NULL))` and the singleton are not modelled. The draws are parameters:
  - a `MoveDraw` per cell and step stands for the `randomBool` and `randomSign` outcomes;
  - a boolean `fires` per cell and step stands for `probability(CELL_MUTATION_RATE)`;
  - the raw `rand()` values of `randomSetLocation` are parameters.
- How many `rand()` calls a move consumes: `randomSign` is drawn only after a `randomBool` fires, so the order of calls is not modelled. The sign in a `MoveDraw` is ignored when its axis does not step.
- IEEE double behaviour of `MATERIAL` and `ENERGY`: both are exact `real`. The 0.1 increment is exact here, and nothing is claimed about rounding.
- Immune agents (T cells, noted only as a memo at main.cpp:11) are not present in this revision of main.cpp, so they are not modelled. The death check at main.cpp:597 looks at energy only.
- Simulation.EraseDead reads `cells.erase(it_cell)` at main.cpp:599 as leaving the cursor on the next element, as `it_cell = cells.erase(it_cell)` would. The source discards the iterator `erase` returns and goes on using `it_cell` (main.cpp:595-596), which the C++ standard leaves undefined. The model assumes the usual behaviour of a contiguous `std::vector`, where the erased slot now holds the next element.
- `delete` of a removed cell (`SAFE_DELETE`, main.cpp:598): memory is not modelled. An erased `Cell` stays in the ghost set `Repr` of every cell ever created.
- `__Landscape`'s `width_`/`height_` fields and `__Mobile`'s `movement_distance_` (never written) are constants or are dropped. The state singletons are the two-valued `CellState`.
- Pointer vectors (`VECTOR(Cell *)`) are modelled as `seq<Cell>` with a proof that no cell object occurs twice.
- The division loop's `continue` for a cell that may not divide, followed by the energy test, is written as one conjunction. This is equivalent.
- Cells.Cell.Metabolize requires the cell to be on the grid. The source indexes the map without a check, and every reachable cell is on the grid (`Phases.RunPreservesValid`). Likewise Simulation.Simulation.MetabolizeCells, Grow, Step and Run require every cell to be on the grid, which the set-up establishes.
- Steps.StepKeeper.IsInterval is modelled but not used: its only callers are the `DEBUG` and output gates.
- `script/stat.py`, `master.py`, `autorun.py` and `script/config.py` are plotting, listing and build tooling. They are not part of this model.

=== FILE: cell.dfy ===
/**
 * The `Cell` object: its fields change in place as it moves, metabolizes,
 * divides and mutates. `View` gives its value, on which CellRules states
 * what each operation does.
 */
module Cells {
  import opened Landscape
  import opened Scapes
  import opened CellRules

  class Cell {
    var x: int
    var y: int
    var energy: real
    var state: CellState
    var divisionCount: nat

    function View(): CellData
      reads this
    {
      CellData(x, y, energy, state, divisionCount)
    }

    /** `new Cell()` followed by `setLocation(x, y)`: a normal cell with the initial energy. */
    constructor (x: int, y: int)
      ensures View() == CellData(x, y, INITIAL_CELL_ENERGY, Normal, 0)
    {
      this.x := x;
      this.y := y;
      energy := INITIAL_CELL_ENERGY;
      state := Normal;
      divisionCount := 0;
    }

    method SetEnergy(e: real)
      modifies this
      ensures View() == old(View()).(energy := e)
    {
      energy := e;
    }

    method IncrementDivisionCount()
      modifies this
      ensures View() == old(View()).(divisionCount := old(divisionCount) + 1)
    {
      divisionCount := divisionCount + 1;
    }

    /** `Cell::changeState`: point at the cancer state; there is no way back. */
    method ChangeState()
      modifies this
      ensures View() == old(View()).(state := Cancer)
    {
      state := Cancer;
    }

    /** `Cell::canDivision`. */
    predicate CanDivide()
      reads this
    {
      CanDivision(View())
    }

    /** `Cell::move`: the mobile move of `__Mobile::move`, then `consumeEnergy(distance)`. */
    method Move(d: MoveDraw) returns (distance: nat)
      modifies this
      ensures View() == MoveCell(old(View()), d)
      ensures distance == MobileMove(old(x), old(y), d).distance
      ensures energy == old(energy) - distance as real
    {
      var m := MobileMove(x, y, d);
      x, y := m.x, m.y;
      distance := m.distance;
      energy := energy - distance as real;
    }

    /**
     * `Cell::metabolize` through the state object: read glucose and oxygen
     * at the cell's position and, if the phenotype's strategy finds enough,
     * gain energy and write the reduced quantities back.
     */
    method Metabolize(gs: Scape, os: Scape)
      requires gs.Valid() && os.Valid() && gs.data != os.data
      requires IsExistingPoint(x, y)
      modifies this, gs.data, os.data
      ensures var k := Index(old(x), old(y));
        var u := UptakeOf(old(state), old(energy), old(gs.data[k]), old(os.data[k]));
        && View() == old(View()).(energy := u.energy)
        && gs.data[..] == old(gs.data[..])[k := u.glucose]
        && os.data[..] == old(os.data[..])[k := u.oxygen]
    {
      match state
      case Normal =>
        var g := gs.Material(x, y);
        var o := os.Material(x, y);
        if g >= CELL_METABOLIZE_GLUCOSE && o >= CELL_METABOLIZE_OXYGEN {
          energy := energy + NORMAL_CELL_GAIN_ENERGY;
          gs.SetMaterial(x, y, g - CELL_METABOLIZE_GLUCOSE);
          os.SetMaterial(x, y, o - CELL_METABOLIZE_OXYGEN);
        }
      case Cancer =>
        var g := gs.Material(x, y);
        if g >= CELL_METABOLIZE_GLUCOSE {
          energy := energy + CANCER_CELL_GAIN_ENERGY;
          gs.SetMaterial(x, y, g - CELL_METABOLIZE_GLUCOSE);
        }
    }

    /** `Cell::mutate`: when the draw of `probability(prob)` fires and the cell is normal, change state. */
    method Mutate(fires: bool)
      modifies this
      ensures View() == Mutated(old(View()), fires)
    {
      if fires {
        if state == Normal {
          ChangeState();
        }
      }
    }
  }
}

=== FILE: cell_rules.dfy ===
/**
 * What a cell is and the rules each of its operations follows, on values:
 * movement on the walled landscape, the two metabolic strategies of the
 * phenotype state machine, the one-way mutation, and division.
 */
module CellRules {
  import opened Landscape
  import opened Randomness

  const INITIAL_CELL_ENERGY: real := 20.0
  const CELL_DEATH_THRESHOLD_ENERGY: real := 0.0
  const CELL_DIVISION_THRESHOLD_ENERGY: real := 30.0
  const MAX_CELL_DIVISION_COUNT: int := 30
  const CELL_METABOLIZE_GLUCOSE: real := 1.0
  const CELL_METABOLIZE_OXYGEN: real := 1.0
  const NORMAL_CELL_GAIN_ENERGY: real := 10.0
  const CANCER_CELL_GAIN_ENERGY: real := 1.0
  /** Percentage passed to `probability` when a cell may mutate. */
  const CELL_MUTATION_RATE: real := 15.4

  /** The phenotype: the `NormalCellState` or `CancerCellState` singleton a cell points at. */
  datatype CellState = Normal | Cancer

  /** A cell's fields: position, energy, phenotype and number of divisions so far. */
  datatype CellData = CellData(x: int, y: int, energy: real, state: CellState, divisionCount: nat)

  /** The outcomes of the four draws behind one move proposal. */
  datatype MoveDraw = MoveDraw(stepX: bool, headsX: bool, stepY: bool, headsY: bool)

  /** Where a move leaves an agent and the Manhattan distance it covered. */
  datatype Movement = Movement(x: int, y: int, distance: nat)

  /**
   * `__Mobile::move`: propose at most one unit per axis; commit only when
   * the target exists on the landscape (the landscape has walls).
   */
  function MobileMove(x: int, y: int, d: MoveDraw): (m: Movement)
    ensures IsExistingPoint(x, y) ==> IsExistingPoint(m.x, m.y)
    ensures m.distance == Abs(m.x - x) + Abs(m.y - y)
    ensures m.distance <= 2
    ensures IsExistingPoint(x + Delta(d.stepX, d.headsX), y + Delta(d.stepY, d.headsY))
            ==> m.distance == (if d.stepX then 1 else 0) + (if d.stepY then 1 else 0)
    ensures !IsExistingPoint(x + Delta(d.stepX, d.headsX), y + Delta(d.stepY, d.headsY))
            ==> m == Movement(x, y, 0)
  {
    var toX := x + Delta(d.stepX, d.headsX);
    var toY := y + Delta(d.stepY, d.headsY);
    if IsExistingPoint(toX, toY) then Movement(toX, toY, Abs(x - toX) + Abs(y - toY))
    else Movement(x, y, 0)
  }

  /**
   * `Cell::move`: the mobile move, with the distance charged to the cell's
   * energy. A moved cell keeps its phenotype and count, stays on the
   * landscape, and pays exactly the distance it covered.
   */
  function MoveCell(c: CellData, d: MoveDraw): (r: CellData)
    ensures r.state == c.state && r.divisionCount == c.divisionCount
    ensures IsExistingPoint(c.x, c.y) ==> IsExistingPoint(r.x, r.y)
    ensures c.energy - r.energy == (Abs(r.x - c.x) + Abs(r.y - c.y)) as real
    ensures 0.0 <= c.energy - r.energy <= 2.0
  {
    var m := MobileMove(c.x, c.y, d);
    c.(x := m.x, y := m.y, energy := c.energy - m.distance as real)
  }

  /** The energy and the glucose and oxygen at the cell's position after one metabolism. */
  datatype Uptake = Uptake(energy: real, glucose: real, oxygen: real)

  /** `NormalCellState::metabolize`: oxidative, needs both glucose and oxygen. */
  function NormalUptake(energy: real, glucose: real, oxygen: real): Uptake
  {
    if glucose >= CELL_METABOLIZE_GLUCOSE && oxygen >= CELL_METABOLIZE_OXYGEN then
      Uptake(energy + NORMAL_CELL_GAIN_ENERGY, glucose - CELL_METABOLIZE_GLUCOSE, oxygen - CELL_METABOLIZE_OXYGEN)
    else
      Uptake(energy, glucose, oxygen)
  }

  /** `CancerCellState::metabolize`: glycolysis, glucose only. */
  function CancerUptake(energy: real, glucose: real, oxygen: real): Uptake
  {
    if glucose >= CELL_METABOLIZE_GLUCOSE then
      Uptake(energy + CANCER_CELL_GAIN_ENERGY, glucose - CELL_METABOLIZE_GLUCOSE, oxygen)
    else
      Uptake(energy, glucose, oxygen)
  }

  /** `Cell::metabolize`: dispatch on the phenotype. */
  function UptakeOf(state: CellState, energy: real, glucose: real, oxygen: real): Uptake
  {
    match state
    case Normal => NormalUptake(energy, glucose, oxygen)
    case Cancer => CancerUptake(energy, glucose, oxygen)
  }

  /**
   * Resources are taken only when present in full: a non-negative
   * quantity stays non-negative and never grows; energy never drops;
   * a cancer cell never touches oxygen; and each unit of glucose yields
   * NORMAL_CELL_GAIN_ENERGY to a normal cell but only CANCER_CELL_GAIN_ENERGY
   * to a cancer cell.
   */
  lemma UptakeProperties(state: CellState, energy: real, glucose: real, oxygen: real)
    ensures var u := UptakeOf(state, energy, glucose, oxygen);
      && (0.0 <= glucose ==> 0.0 <= u.glucose <= glucose)
      && (0.0 <= oxygen ==> 0.0 <= u.oxygen <= oxygen)
      && energy <= u.energy
      && (state == Cancer ==> u.oxygen == oxygen)
      && (state == Normal ==> u.energy - energy == NORMAL_CELL_GAIN_ENERGY * (glucose - u.glucose))
      && (state == Normal ==> glucose - u.glucose == oxygen - u.oxygen)
      && (state == Cancer ==> u.energy - energy == CANCER_CELL_GAIN_ENERGY * (glucose - u.glucose))
  {
  }

  /**
   * A metabolic attempt succeeds exactly when the cell's strategy finds
   * enough material; a success takes one unit of each material the
   * strategy uses and pays the strategy's gain, a failure changes nothing.
   */
  lemma UptakeSucceeds(state: CellState, energy: real, glucose: real, oxygen: real)
    ensures var u := UptakeOf(state, energy, glucose, oxygen);
      && (u.energy > energy <==>
            glucose >= CELL_METABOLIZE_GLUCOSE && (state == Normal ==> oxygen >= CELL_METABOLIZE_OXYGEN))
      && (u.energy > energy && state == Normal ==>
            u == Uptake(energy + NORMAL_CELL_GAIN_ENERGY, glucose - CELL_METABOLIZE_GLUCOSE, oxygen - CELL_METABOLIZE_OXYGEN))
      && (u.energy > energy && state == Cancer ==>
            u == Uptake(energy + CANCER_CELL_GAIN_ENERGY, glucose - CELL_METABOLIZE_GLUCOSE, oxygen))
      && (u.energy == energy ==> u == Uptake(energy, glucose, oxygen))
  {
  }

  /** `Cell::mutate`: when the draw fires, a normal cell turns cancerous. */
  function Mutated(c: CellData, fires: bool): (r: CellData)
    ensures r == c.(state := r.state)
    ensures c.state == Cancer ==> r.state == Cancer
    ensures r.state != c.state <==> fires && c.state == Normal
  {
    if fires && c.state == Normal then c.(state := Cancer) else c
  }

  /** A cell after a series of mutation draws, first draw first. */
  function MutatedSeries(c: CellData, draws: seq<bool>): CellData
  {
    if draws == [] then c else Mutated(MutatedSeries(c, draws[..|draws| - 1]), draws[|draws| - 1])
  }

  /**
   * The ratchet: after any series of draws a cell is cancerous exactly when
   * it already was or some draw fired, and nothing but the phenotype changes.
   */
  lemma {:induction false} MutationRatchet(c: CellData, draws: seq<bool>)
    ensures MutatedSeries(c, draws).state == Cancer <==> c.state == Cancer || true in draws
    ensures MutatedSeries(c, draws) == c.(state := MutatedSeries(c, draws).state)
  {
    if draws != [] {
      var prefix := draws[..|draws| - 1];
      MutationRatchet(c, prefix);
      assert draws == prefix + [draws[|draws| - 1]];
    }
  }

  /**
   * `Cell::canDivision`: a cancer cell may always divide; a normal cell
   * only below MAX_CELL_DIVISION_COUNT divisions.
   */
  predicate CanDivision(c: CellData)
  {
    if c.state == Cancer then true
    else c.divisionCount < MAX_CELL_DIVISION_COUNT
  }

  /** The division phase splits a cell that may divide and holds more than the threshold energy. */
  predicate Divides(c: CellData)
  {
    CanDivision(c) && c.energy > CELL_DIVISION_THRESHOLD_ENERGY
  }

  /** A dividing cell after the split: half the energy, one more division. */
  function Parent(c: CellData): CellData
  {
    c.(energy := c.energy / 2.0, divisionCount := c.divisionCount + 1)
  }

  /**
   * The newborn: `new Cell()` put at the parent's position, switched to
   * cancer when the parent is cancerous, given half the parent's energy.
   */
  function Child(c: CellData): CellData
  {
    var born := CellData(c.x, c.y, INITIAL_CELL_ENERGY, Normal, 0);
    var phenotype := if c.state == Cancer then born.(state := Cancer) else born;
    phenotype.(energy := c.energy / 2.0)
  }

  /**
   * Division: parent and child share the position and phenotype, split the
   * energy exactly, the child starts uncounted, and a normal parent never
   * exceeds MAX_CELL_DIVISION_COUNT divisions.
   */
  lemma DivisionSplit(c: CellData)
    requires Divides(c)
    ensures Parent(c).energy + Child(c).energy == c.energy
    ensures Parent(c).energy == Child(c).energy > CELL_DIVISION_THRESHOLD_ENERGY / 2.0
    ensures Child(c).x == Parent(c).x == c.x && Child(c).y == Parent(c).y == c.y
    ensures Child(c).state == Parent(c).state == c.state
    ensures Child(c).divisionCount == 0 && Parent(c).divisionCount == c.divisionCount + 1
    ensures c.state == Normal ==> Parent(c).divisionCount <= MAX_CELL_DIVISION_COUNT
  {
  }

  /**
   * Eligibility: always for a cancer cell; for a normal cell exactly below
   * the cap. With DivisionSplit this is why a normal cell never passes
   * MAX_CELL_DIVISION_COUNT, the part of the invariant `CellsValid` that
   * Phases.StepPreservesValid carries through every step.
   */
  lemma DivisionEligibility(c: CellData)
    ensures c.state == Cancer ==> CanDivision(c)
    ensures c.state == Normal ==> (CanDivision(c) <==> c.divisionCount < MAX_CELL_DIVISION_COUNT)
  {
  }
}

=== FILE: landscape.dfy ===
/**
 * The 30x30 landscape shared by every positioned agent: its bounds test
 * and the row-major layout of the per-position resource grids.
 */
module Landscape {
  const WIDTH: int := 30
  const HEIGHT: int := 30
  /** Number of grid positions; a resource grid holds one entry per position. */
  const AREA: int := WIDTH * HEIGHT

  /** `__Landscape::isExistingPoint`: four guards, any of which rejects the point. */
  predicate IsExistingPoint(x: int, y: int)
  {
    if x < 0 then false
    else if y < 0 then false
    else if x > WIDTH - 1 then false
    else if y > HEIGHT - 1 then false
    else true
  }

  /** The point lies in the rectangle [0, WIDTH) x [0, HEIGHT). */
  lemma ExistingPointIsInRectangle(x: int, y: int)
    ensures IsExistingPoint(x, y) <==> 0 <= x < WIDTH && 0 <= y < HEIGHT
  {
  }

  /**
   * Offset of entry `[y][x]` of a row-major `[HEIGHT][WIDTH]` grid,
   * the layout of the resource maps.
   */
  function Index(x: int, y: int): (k: int)
    requires IsExistingPoint(x, y)
    ensures 0 <= k < AREA
  {
    y * WIDTH + x
  }

  /** Distinct points never share a grid entry. */
  lemma IndexInjective(x1: int, y1: int, x2: int, y2: int)
    requires IsExistingPoint(x1, y1) && IsExistingPoint(x2, y2)
    ensures Index(x1, y1) == Index(x2, y2) <==> x1 == x2 && y1 == y2
  {
    if y1 < y2 {
      assert Index(x1, y1) < (y1 + 1) * WIDTH <= Index(x2, y2);
    } else if y2 < y1 {
      assert Index(x2, y2) < (y2 + 1) * WIDTH <= Index(x1, y1);
    }
  }
}

=== FILE: phases.dfy ===
/**
 * One simulation step on values: the population and both landscapes,
 * pushed through move, division, metabolism, removal of dead cells,
 * mutation and regeneration, in that order. The imperative step in
 * module Simulation is proved equal to `StepWorld`.
 */
module Phases {
  import opened Landscape
  import opened Scapes
  import opened CellRules

  /** The population vector and the two resource grids. */
  datatype World = World(cells: seq<CellData>, glucose: seq<real>, oxygen: seq<real>)

  ghost predicate OnGrid(cs: seq<CellData>)
  {
    forall k :: 0 <= k < |cs| ==> IsExistingPoint(cs[k].x, cs[k].y)
  }

  /** What every reachable population satisfies: on the grid, normal cells within their division cap. */
  ghost predicate CellsValid(cs: seq<CellData>)
  {
    forall k :: 0 <= k < |cs| ==>
      IsExistingPoint(cs[k].x, cs[k].y) &&
      (cs[k].state == Normal ==> cs[k].divisionCount <= MAX_CELL_DIVISION_COUNT)
  }

  /** The shape every phase relies on: two full grids and the cells on the grid. */
  ghost predicate WellFormed(w: World)
  {
    // bound to a name so the verifier keeps the conjunction as one fact instead of splitting it
    var ok := |w.glucose| == AREA && |w.oxygen| == AREA && OnGrid(w.cells);
    ok
  }

  /** The invariant of the simulation: well formed, both grids within [0, capacity], cells valid. */
  ghost predicate WorldValid(w: World)
  {
    WellFormed(w) && Bounded(w.glucose, MAX_GLUCOSE) && Bounded(w.oxygen, MAX_OXYGEN) && CellsValid(w.cells)
  }

  function TotalEnergy(cs: seq<CellData>): real
  {
    if cs == [] then 0.0 else TotalEnergy(cs[..|cs| - 1]) + cs[|cs| - 1].energy
  }

  lemma {:induction false} TotalEnergyAppend(a: seq<CellData>, b: seq<CellData>)
    ensures TotalEnergy(a + b) == TotalEnergy(a) + TotalEnergy(b)
  {
    if b != [] {
      var b' := b[..|b| - 1];
      assert (a + b)[..|a + b| - 1] == a + b';
      assert (a + b)[|a + b| - 1] == b[|b| - 1];
      TotalEnergyAppend(a, b');
      assert TotalEnergy(a + b) == TotalEnergy(a + b') + b[|b| - 1].energy;
    } else {
      assert a + b == a;
    }
  }

  // ---------------------------------------------------------------- move

  /** Move phase: every cell moves once, cell k with draw k. */
  function MoveAll(cs: seq<CellData>, draws: nat -> MoveDraw): (r: seq<CellData>)
    ensures |r| == |cs|
    ensures OnGrid(cs) ==> OnGrid(r)
    ensures CellsValid(cs) ==> CellsValid(r)
  {
    var r := seq(|cs|, k requires 0 <= k < |cs| => MoveCell(cs[k], draws(k)));
    assert forall k :: 0 <= k < |cs| ==> r[k] == MoveCell(cs[k], draws(k));
    r
  }

  /** Moving keeps every cell's state and never adds energy. */
  lemma MoveAllEffect(cs: seq<CellData>, draws: nat -> MoveDraw)
    ensures var r := MoveAll(cs, draws);
      forall k :: 0 <= k < |cs| ==> r[k].state == cs[k].state && r[k].energy <= cs[k].energy
  {
    var r := MoveAll(cs, draws);
    assert forall k :: 0 <= k < |cs| ==> r[k] == MoveCell(cs[k], draws(k));
  }

  // ------------------------------------------------------------ division

  /** The original cells after the division phase, in their original order. */
  function Parents(cs: seq<CellData>): (r: seq<CellData>)
    ensures |r| == |cs|
  {
    seq(|cs|, k requires 0 <= k < |cs| => if Divides(cs[k]) then Parent(cs[k]) else cs[k])
  }

  /** The pending list of newborns, in the order of their parents. */
  function Children(cs: seq<CellData>): (r: seq<CellData>)
    ensures |r| <= |cs|
    ensures OnGrid(cs) ==> OnGrid(r)
  {
    if cs == [] then []
    else
      var last := cs[|cs| - 1];
      Children(cs[..|cs| - 1]) + (if Divides(last) then [Child(last)] else [])
  }

  /** Every newborn starts with no divisions. */
  lemma {:induction false} ChildrenAreNewborn(cs: seq<CellData>)
    ensures var r := Children(cs); forall k :: 0 <= k < |r| ==> r[k].divisionCount == 0
  {
    if cs != [] {
      var last := cs[|cs| - 1];
      ChildrenAreNewborn(cs[..|cs| - 1]);
      var tail := if Divides(last) then [Child(last)] else [];
      assert forall k :: 0 <= k < |tail| ==> tail[k] == Child(last);
      assert Children(cs) == Children(cs[..|cs| - 1]) + tail;
    }
  }

  /** Division scanning one more cell: it contributes a newborn exactly when it divides. */
  lemma ChildrenSnoc(cs: seq<CellData>, i: int)
    requires 0 <= i < |cs|
    ensures Children(cs[..i + 1]) == Children(cs[..i]) + (if Divides(cs[i]) then [Child(cs[i])] else [])
  {
    assert cs[..i + 1][..i] == cs[..i];
  }

  /** Division phase: the originals, then the pending newborns appended after all of them. */
  function DivideAll(cs: seq<CellData>): (r: seq<CellData>)
    ensures |cs| <= |r| <= 2 * |cs|
    ensures r[..|cs|] == Parents(cs)
    ensures r[|cs|..] == Children(cs)
    ensures OnGrid(cs) ==> OnGrid(r)
    ensures CellsValid(cs) ==> CellsValid(r)
  {
    assert CellsValid(cs) ==> CellsValid(Parents(cs) + Children(cs)) by {
      if CellsValid(cs) {
        var p, c := Parents(cs), Children(cs);
        ChildrenAreNewborn(cs);
        assert OnGrid(cs);
        assert forall k :: 0 <= k < |p| ==> p[k] == if Divides(cs[k]) then Parent(cs[k]) else cs[k];
        assert forall k :: 0 <= k < |p + c| ==> (p + c)[k] == if k < |p| then p[k] else c[k - |p|];
      }
    }
    Parents(cs) + Children(cs)
  }

  lemma ParentsSnoc(cs: seq<CellData>, c: CellData)
    ensures Parents(cs + [c]) == Parents(cs) + [if Divides(c) then Parent(c) else c]
  {
  }

  /** Dividing splits energy without creating or losing any. */
  lemma {:induction false} DivisionConservesEnergy(cs: seq<CellData>)
    ensures TotalEnergy(DivideAll(cs)) == TotalEnergy(cs)
  {
    TotalEnergyAppend(Parents(cs), Children(cs));
    ParentsAndChildrenEnergy(cs);
  }

  lemma {:induction false} ParentsAndChildrenEnergy(cs: seq<CellData>)
    ensures TotalEnergy(Parents(cs)) + TotalEnergy(Children(cs)) == TotalEnergy(cs)
  {
    if cs != [] {
      var init, last := cs[..|cs| - 1], cs[|cs| - 1];
      assert cs == init + [last];
      ParentsAndChildrenEnergy(init);
      ParentsSnoc(init, last);
      assert Parents(cs)[..|cs| - 1] == Parents(init);
      if Divides(last) {
        assert Children(cs)[..|Children(cs)| - 1] == Children(init);
      } else {
        assert Children(cs) == Children(init);
      }
    }
  }

  /** The population grows by exactly the number of dividing cells. */
  lemma {:induction false} DivisionGrowth(cs: seq<CellData>)
    ensures |DivideAll(cs)| == |cs| + |Dividing(cs)|
    ensures forall k :: 0 <= k < |Children(cs)| ==> Children(cs)[k] == Child(Dividing(cs)[k])
  {
    if cs != [] {
      DivisionGrowth(cs[..|cs| - 1]);
    }
  }

  /** The cells that divide this phase, in order. */
  function Dividing(cs: seq<CellData>): seq<CellData>
  {
    if cs == [] then []
    else
      var last := cs[|cs| - 1];
      Dividing(cs[..|cs| - 1]) + (if Divides(last) then [last] else [])
  }

  // ---------------------------------------------------------- metabolism

  /** One cell metabolizes at its position; only that entry of each grid can change. */
  function MetabolizeCell(c: CellData, glucose: seq<real>, oxygen: seq<real>): World
    requires |glucose| == AREA && |oxygen| == AREA && IsExistingPoint(c.x, c.y)
  {
    var k := Index(c.x, c.y);
    var u := UptakeOf(c.state, c.energy, glucose[k], oxygen[k]);
    World([c.(energy := u.energy)], glucose[k := u.glucose], oxygen[k := u.oxygen])
  }

  /**
   * Metabolism phase: cells metabolize one after another in population
   * order, each seeing the grids as the cells before it left them.
   */
  function MetabolizeAll(cs: seq<CellData>, glucose: seq<real>, oxygen: seq<real>): (r: World)
    requires |glucose| == AREA && |oxygen| == AREA && OnGrid(cs)
    ensures |r.cells| == |cs| && |r.glucose| == AREA && |r.oxygen| == AREA
    ensures OnGrid(r.cells) && (CellsValid(cs) ==> CellsValid(r.cells))
    decreases |cs|
  {
    if cs == [] then World([], glucose, oxygen)
    else
      var before := MetabolizeAll(cs[..|cs| - 1], glucose, oxygen);
      var m := MetabolizeCell(cs[|cs| - 1], before.glucose, before.oxygen);
      World(before.cells + m.cells, m.glucose, m.oxygen)
  }

  /**
   * What the metabolism phase does to the population and the grids: each
   * cell keeps everything but its energy, which never falls; no grid entry
   * grows or turns negative; an all-cancer population leaves oxygen alone.
   */
  lemma {:induction false} MetabolizeAllEffect(cs: seq<CellData>, glucose: seq<real>, oxygen: seq<real>)
    requires |glucose| == AREA && |oxygen| == AREA && OnGrid(cs)
    ensures var r := MetabolizeAll(cs, glucose, oxygen);
      && (forall k :: 0 <= k < |cs| ==>
            r.cells[k] == cs[k].(energy := r.cells[k].energy) && cs[k].energy <= r.cells[k].energy)
      && (forall k :: 0 <= k < AREA ==>
            r.glucose[k] <= glucose[k] && (0.0 <= glucose[k] ==> 0.0 <= r.glucose[k]))
      && (forall k :: 0 <= k < AREA ==>
            r.oxygen[k] <= oxygen[k] && (0.0 <= oxygen[k] ==> 0.0 <= r.oxygen[k]))
      && ((forall k :: 0 <= k < |cs| ==> cs[k].state == Cancer) ==> r.oxygen == oxygen)
    decreases |cs|
  {
    if cs != [] {
      var init := cs[..|cs| - 1];
      MetabolizeAllEffect(init, glucose, oxygen);
      var before := MetabolizeAll(init, glucose, oxygen);
      var last := cs[|cs| - 1];
      var k := Index(last.x, last.y);
      UptakeProperties(last.state, last.energy, before.glucose[k], before.oxygen[k]);
    }
  }

  /** The metabolism phase extended by one more cell. */
  lemma MetabolizeAllSnoc(cs: seq<CellData>, c: CellData, glucose: seq<real>, oxygen: seq<real>)
    requires |glucose| == AREA && |oxygen| == AREA && OnGrid(cs) && IsExistingPoint(c.x, c.y)
    ensures OnGrid(cs + [c])
    ensures var w := MetabolizeAll(cs, glucose, oxygen);
      var m := MetabolizeCell(c, w.glucose, w.oxygen);
      MetabolizeAll(cs + [c], glucose, oxygen) == World(w.cells + m.cells, m.glucose, m.oxygen)
  {
    assert (cs + [c])[..|cs|] == cs;
  }

  // --------------------------------------------------------------- death

  /** Removal of dead cells: those with energy above the death threshold, in order. */
  function Survivors(cs: seq<CellData>): (r: seq<CellData>)
    ensures |r| <= |cs|
  {
    if cs == [] then []
    else
      var last := cs[|cs| - 1];
      Survivors(cs[..|cs| - 1]) + (if last.energy > CELL_DEATH_THRESHOLD_ENERGY then [last] else [])
  }

  /**
   * Every survivor holds energy above the death threshold, and survivors
   * stay on the grid and within their division cap.
   */
  lemma {:induction false} SurvivorsAlive(cs: seq<CellData>)
    ensures var r := Survivors(cs);
      && (forall k :: 0 <= k < |r| ==> r[k].energy > CELL_DEATH_THRESHOLD_ENERGY)
      && (OnGrid(cs) ==> OnGrid(r))
      && (CellsValid(cs) ==> CellsValid(r))
  {
    if cs != [] {
      var init := cs[..|cs| - 1];
      var last := cs[|cs| - 1];
      SurvivorsAlive(init);
      var tail := if last.energy > CELL_DEATH_THRESHOLD_ENERGY then [last] else [];
      assert forall k :: 0 <= k < |tail| ==> tail[k] == last;
      assert Survivors(cs) == Survivors(init) + tail;
    }
  }

  /** Removal scanning one more cell: it is kept exactly when it has energy above the threshold. */
  lemma SurvivorsSnoc(cs: seq<CellData>, e: int)
    requires 0 <= e < |cs|
    ensures Survivors(cs[..e + 1]) ==
      Survivors(cs[..e]) + (if cs[e].energy > CELL_DEATH_THRESHOLD_ENERGY then [cs[e]] else [])
  {
    assert cs[..e + 1][..e] == cs[..e];
  }

  /** Removal works piecewise, so survivors keep their relative order. */
  lemma {:induction false} SurvivorsAppend(a: seq<CellData>, b: seq<CellData>)
    ensures Survivors(a + b) == Survivors(a) + Survivors(b)
  {
    if b != [] {
      var b' := b[..|b| - 1];
      assert (a + b)[..|a + b| - 1] == a + b';
      assert (a + b)[|a + b| - 1] == b[|b| - 1];
      SurvivorsAppend(a, b');
    } else {
      assert a + b == a;
    }
  }

  /** Exactly the live cells survive, each as often as it occurred. */
  lemma {:induction false} SurvivorsCount(cs: seq<CellData>, c: CellData)
    ensures multiset(Survivors(cs))[c] ==
            if c.energy > CELL_DEATH_THRESHOLD_ENERGY then multiset(cs)[c] else 0
  {
    if cs != [] {
      var init := cs[..|cs| - 1];
      assert cs == init + [cs[|cs| - 1]];
      SurvivorsCount(init, c);
    }
  }

  // ------------------------------------------------------------ mutation

  /** Mutation phase: every cell draws once, cell k with draw k. */
  function MutateAll(cs: seq<CellData>, fires: nat -> bool): (r: seq<CellData>)
    ensures |r| == |cs|
    ensures OnGrid(cs) ==> OnGrid(r)
    ensures CellsValid(cs) ==> CellsValid(r)
  {
    var r := seq(|cs|, k requires 0 <= k < |cs| => Mutated(cs[k], fires(k)));
    assert forall k :: 0 <= k < |cs| ==> r[k] == Mutated(cs[k], fires(k));
    r
  }

  /** Mutation changes nothing but the state, and a cancer cell stays cancerous. */
  lemma MutateAllEffect(cs: seq<CellData>, fires: nat -> bool)
    ensures var r := MutateAll(cs, fires);
      forall k :: 0 <= k < |cs| ==>
        r[k] == cs[k].(state := r[k].state) && (cs[k].state == Cancer ==> r[k].state == Cancer)
  {
    var r := MutateAll(cs, fires);
    assert forall k :: 0 <= k < |cs| ==> r[k] == Mutated(cs[k], fires(k));
  }

  // ---------------------------------------------------------------- step

  /** One step of the main loop, before its output. */
  function StepWorld(w: World, moves: nat -> MoveDraw, fires: nat -> bool): (r: World)
    requires WellFormed(w)
    ensures WellFormed(r)
  {
    var moved := MoveAll(w.cells, moves);
    var divided := DivideAll(moved);
    var fed := MetabolizeAll(divided, w.glucose, w.oxygen);
    var alive := Survivors(fed.cells);
    SurvivorsAlive(fed.cells);
    var mutated := MutateAll(alive, fires);
    World(mutated,
          Regenerate(fed.glucose, GLUCOSE_GENERATE, MAX_GLUCOSE),
          Regenerate(fed.oxygen, OXYGEN_GENERATE, MAX_OXYGEN))
  }

  /**
   * The simulation's invariant survives every step: cells stay on the
   * grid, normal cells never pass the division cap, and every grid entry
   * stays within [0, capacity].
   */
  lemma StepPreservesValid(w: World, moves: nat -> MoveDraw, fires: nat -> bool)
    requires WorldValid(w)
    ensures WorldValid(StepWorld(w, moves, fires))
  {
    var moved := MoveAll(w.cells, moves);
    var divided := DivideAll(moved);
    var fed := MetabolizeAll(divided, w.glucose, w.oxygen);
    MetabolizeAllEffect(divided, w.glucose, w.oxygen);
    assert CellsValid(fed.cells);
    assert Bounded(fed.glucose, MAX_GLUCOSE);
    assert Bounded(fed.oxygen, MAX_OXYGEN);
    SurvivorsAlive(fed.cells);
  }

  /** A step leaves only living cells: every cell holds energy above the death threshold. */
  lemma StepLeavesLiving(w: World, moves: nat -> MoveDraw, fires: nat -> bool)
    requires WellFormed(w)
    ensures var r := StepWorld(w, moves, fires);
      forall k :: 0 <= k < |r.cells| ==> r.cells[k].energy > CELL_DEATH_THRESHOLD_ENERGY
  {
    var fed := MetabolizeAll(DivideAll(MoveAll(w.cells, moves)), w.glucose, w.oxygen);
    SurvivorsAlive(fed.cells);
    MutateAllEffect(Survivors(fed.cells), fires);
  }

  /** Step k + 1 of the main loop applied to `w`, the world after k steps. */
  ghost function NextWorld(w: World, k: nat, moves: nat -> nat -> MoveDraw, fires: nat -> nat -> bool): (r: World)
    requires WellFormed(w)
    ensures WellFormed(r)
  {
    StepWorld(w, moves(k + 1), fires(k + 1))
  }

  /**
   * The world after steps 1 to n of the main loop; step s uses the draws
   * moves(s) and fires(s).
   */
  ghost function RunWorld(w: World, n: nat, moves: nat -> nat -> MoveDraw, fires: nat -> nat -> bool): (r: World)
    requires WellFormed(w)
    ensures WellFormed(r)
  {
    if n == 0 then w
    else
      var prev := RunWorld(w, n - 1, moves, fires);
      StepWorld(prev, moves(n), fires(n))
  }

  /**
   * However many steps run and whatever is drawn, the simulation's
   * invariant holds throughout.
   */
  lemma {:induction false} RunPreservesValid(w: World, n: nat, moves: nat -> nat -> MoveDraw, fires: nat -> nat -> bool)
    requires WorldValid(w)
    ensures WorldValid(RunWorld(w, n, moves, fires))
  {
    if n > 0 {
      RunPreservesValid(w, n - 1, moves, fires);
      StepPreservesValid(RunWorld(w, n - 1, moves, fires), moves(n), fires(n));
    }
  }

  /**
   * `trace` records consecutive worlds of a run: all well formed, and each
   * entry after the first the next step of the one before.
   */
  ghost predicate IsRun(trace: seq<World>, moves: nat -> nat -> MoveDraw, fires: nat -> nat -> bool)
  {
    (forall k :: 0 <= k < |trace| ==> WellFormed(trace[k])) &&
    forall k {:trigger NextWorld(trace[k], k, moves, fires)} :: 0 <= k < |trace| - 1 ==>
      trace[k + 1] == NextWorld(trace[k], k, moves, fires)
  }

  /** The worlds the main loop passes through in n steps from `w`, `w` itself first. */
  ghost function Trace(w: World, n: nat, moves: nat -> nat -> MoveDraw, fires: nat -> nat -> bool): (r: seq<World>)
    requires WellFormed(w)
    ensures |r| == n + 1 && r[0] == w && r[n] == RunWorld(w, n, moves, fires)
    ensures IsRun(r, moves, fires)
  {
    seq(n + 1, k requires 0 <= k <= n => RunWorld(w, k, moves, fires))
  }

  /** The world `main` sets up: normal cells with the initial energy, both grids seeded. */
  ghost predicate Seeded(w: World)
  {
    |w.glucose| == AREA && |w.oxygen| == AREA &&
    (forall k :: 0 <= k < AREA ==> w.glucose[k] == INITIAL_MATERIAL && w.oxygen[k] == INITIAL_MATERIAL) &&
    Initial(w.cells)
  }

  /** Cells as `main` creates them: on the grid, normal, with the initial energy and no division yet. */
  ghost predicate Initial(cs: seq<CellData>)
  {
    forall k :: 0 <= k < |cs| ==>
      IsExistingPoint(cs[k].x, cs[k].y) && cs[k] == CellData(cs[k].x, cs[k].y, INITIAL_CELL_ENERGY, Normal, 0)
  }

  /** The set-up satisfies the simulation's invariant. */
  lemma SeededWorldValid(w: World)
    requires Seeded(w)
    ensures WorldValid(w)
  {
  }
}

=== FILE: random.dfy ===
/**
 * The arithmetic of the `Random` singleton. The raw values of the C
 * library's `rand()` are parameters: the generator itself, its seeding
 * from the clock and its distribution are outside the model.
 */
module Randomness {
  function Abs(n: int): (r: nat)
    ensures r == n || r == -n
  {
    if n < 0 then -n else n
  }

  /**
   * C++'s `%` on int: truncated division, so the remainder takes the sign
   * of the dividend (Dafny's own `%` is Euclidean).
   */
  function TruncRem(a: int, b: int): (r: int)
    requires b != 0
    ensures a >= 0 ==> 0 <= r < Abs(b)
    ensures a < 0 ==> 0 < r + Abs(b) && r <= 0
  {
    if a >= 0 then a % b else -((-a) % b)
  }

  /**
   * `uniformInt(min, max)`: `rand() % (max - min + 1) + min`. The C library
   * never returns a negative raw value, and an empty range would divide by zero.
   */
  function UniformInt(raw: int, min: int, max: int): (r: int)
    requires raw >= 0 && min <= max
    ensures min <= r <= max
    ensures raw <= max - min ==> r == raw + min
  {
    TruncRem(raw, max - min + 1) + min
  }

  /** `randomDouble()`: `(rand() + 1) / (RAND_MAX + 2)`, strictly inside (0, 1). */
  function RandomDouble(raw: int, randMax: int): (r: real)
    requires 0 <= raw <= randMax
    ensures 0.0 < r < 1.0
  {
    (raw as real + 1.0) / (randMax as real + 2.0)
  }

  /**
   * `uniformDouble(min, max)`: `uniformInt(min, max - 1) + randomDouble()`,
   * from the draws `rawInt` and `rawFrac`, taken in an order C++ leaves
   * unspecified; the result lies strictly between min and max. The source
   * takes `double` bounds and converts `min` and `max - 1` to `int` for
   * `uniformInt`; its only caller passes the whole numbers 0 and 100, so the
   * bounds are integers here.
   */
  function UniformDouble(rawInt: int, rawFrac: int, randMax: int, min: int, max: int): (r: real)
    requires rawInt >= 0 && 0 <= rawFrac <= randMax && min < max
    ensures min as real < r < max as real
  {
    UniformInt(rawInt, min, max - 1) as real + RandomDouble(rawFrac, randMax)
  }

  /**
   * `probability(prob)`: true when `prob` exceeds a draw from (0, 100); so a
   * percentage of 0 or less never fires and one of 100 or more always does.
   */
  function Probability(prob: real, rawInt: int, rawFrac: int, randMax: int): (fires: bool)
    requires rawInt >= 0 && 0 <= rawFrac <= randMax
    ensures prob <= 0.0 ==> !fires
    ensures prob >= 100.0 ==> fires
  {
    prob > UniformDouble(rawInt, rawFrac, randMax, 0, 100)
  }

  /** `randomSign()`: -1 when a fair `probability(50)` fires, +1 otherwise. */
  function Sign(heads: bool): (s: int)
    ensures Abs(s) == 1
  {
    if heads then -1 else 1
  }

  /**
   * One axis of a move proposal: `if (randomBool()) to += randomSign()`,
   * given the outcome of both draws.
   */
  function Delta(step: bool, heads: bool): (d: int)
    ensures Abs(d) == (if step then 1 else 0)
  {
    if step then Sign(heads) else 0
  }
}

=== FILE: scape.dfy ===
/**
 * The glucose and oxygen landscapes: a HEIGHT x WIDTH grid of material
 * quantities, seeded uniformly, that regenerates locally every step.
 * `GlucoseScape` and `OxygenScape` are the same code over different
 * constants, so both are one class here, instantiated twice.
 */
module Scapes {
  import opened Landscape

  const MAX_GLUCOSE: real := 100.0
  const GLUCOSE_GENERATE: real := 0.1
  const MAX_OXYGEN: real := 100.0
  const OXYGEN_GENERATE: real := 0.1
  /** The quantity every grid entry starts with. */
  const INITIAL_MATERIAL: real := 5.0

  /**
   * One entry after `generate()`: the increment is added only when the entry
   * is at most `max - increment`, so the entry approaches the capacity in
   * whole increments and is never clamped onto it.
   */
  function Regenerated(v: real, increment: real, max: real): (r: real)
    ensures v <= max ==> r <= max
    ensures increment >= 0.0 ==> v <= r
    ensures increment > 0.0 ==> (r == v + increment <==> v <= max - increment)
    ensures increment > 0.0 ==> (r == v <==> v > max - increment)
  {
    if v <= max - increment then v + increment else v
  }

  /** Every entry of a grid lies in [0, max]. */
  ghost predicate Bounded(s: seq<real>, max: real)
  {
    forall k :: 0 <= k < |s| ==> 0.0 <= s[k] <= max
  }

  /** The whole grid after `generate()`. */
  function Regenerate(s: seq<real>, increment: real, max: real): (r: seq<real>)
    ensures |r| == |s|
    ensures increment >= 0.0 && Bounded(s, max) ==> Bounded(r, max)
    ensures increment >= 0.0 ==> forall k :: 0 <= k < |s| ==> s[k] <= r[k]
  {
    seq(|s|, k requires 0 <= k < |s| => Regenerated(s[k], increment, max))
  }

  /** An entry after `n` consecutive regenerations with no consumption in between. */
  function RegeneratedTimes(v: real, increment: real, max: real, n: nat): real
  {
    if n == 0 then v else Regenerated(RegeneratedTimes(v, increment, max, n - 1), increment, max)
  }

  /**
   * Quantized approach: left alone, an entry either has grown by exactly
   * `n` increments or has entered the band (max - increment, max], where it
   * then stays; it never exceeds the capacity and is never clamped onto it.
   */
  lemma {:induction false} RegenerationIsQuantized(v: real, increment: real, max: real, n: nat)
    requires v <= max && increment > 0.0
    ensures v <= RegeneratedTimes(v, increment, max, n) <= max
    ensures RegeneratedTimes(v, increment, max, n) == v + n as real * increment
         || max - increment < RegeneratedTimes(v, increment, max, n)
  {
    if n > 0 {
      RegenerationIsQuantized(v, increment, max, n - 1);
      var prev := RegeneratedTimes(v, increment, max, n - 1);
      if prev == v + (n - 1) as real * increment {
        assert v + n as real * increment == prev + increment;
      }
    }
  }

  /** Once in the top band, further regenerations leave an entry where it is. */
  lemma {:induction false} TopBandIsStable(v: real, increment: real, max: real, n: nat)
    requires increment > 0.0 && max - increment < v
    ensures RegeneratedTimes(v, increment, max, n) == v
  {
    if n > 0 {
      TopBandIsStable(v, increment, max, n - 1);
    }
  }

  /**
   * A resource landscape. `data` is the `[HEIGHT][WIDTH]` map laid out row
   * by row, entry `[y][x]` at `Index(x, y)`.
   */
  class Scape {
    const max: real
    const increment: real
    const data: array<real>

    ghost predicate Valid()
    {
      data.Length == AREA
    }

    /** The constructor seeds every entry with INITIAL_MATERIAL. */
    constructor (max: real, increment: real)
      ensures Valid() && fresh(data)
      ensures this.max == max && this.increment == increment
      ensures forall k :: 0 <= k < AREA ==> data[k] == INITIAL_MATERIAL
    {
      this.max := max;
      this.increment := increment;
      data := new real[AREA](_ => INITIAL_MATERIAL);
    }

    /** `glucose(x, y)` / `oxygen(x, y)`: entry `[y][x]`. */
    function Material(x: int, y: int): real
      requires Valid() && IsExistingPoint(x, y)
      reads data
    {
      data[Index(x, y)]
    }

    /** `setGlucose` / `setOxygen`: overwrite entry `[y][x]`, nothing else. */
    method SetMaterial(x: int, y: int, value: real)
      requires Valid() && IsExistingPoint(x, y)
      modifies data
      ensures data[..] == old(data[..])[Index(x, y) := value]
    {
      data[Index(x, y)] := value;
    }

    /** `generate()`: regenerate row by row, column by column. */
    method Generate()
      requires Valid()
      modifies data
      ensures data[..] == Regenerate(old(data[..]), increment, max)
    {
      for i := 0 to HEIGHT
        invariant forall k :: 0 <= k < i * WIDTH ==> data[k] == Regenerated(old(data[k]), increment, max)
        invariant forall k :: i * WIDTH <= k < AREA ==> data[k] == old(data[k])
      {
        for j := 0 to WIDTH
          invariant forall k :: 0 <= k < i * WIDTH + j ==> data[k] == Regenerated(old(data[k]), increment, max)
          invariant forall k :: i * WIDTH + j <= k < AREA ==> data[k] == old(data[k])
        {
          if Material(j, i) <= max - increment {
            data[Index(j, i)] := data[Index(j, i)] + increment;
          }
        }
      }
    }
  }
}

=== FILE: simulation.dfy ===
/**
 * The main loop of the model: the cell population vector and the two
 * landscapes, changed in place phase by phase. Every phase method is
 * proved to do what the value-level phase of module Phases says, so the
 * whole step is `StepWorld` and the whole run is `RunWorld`.
 */
module Simulation {
  import opened Landscape
  import opened Randomness
  import opened Scapes
  import opened CellRules
  import opened Cells
  import opened Phases
  import opened Steps

  const MAX_STEP: int := 5000
  const CELL_SIZE: int := 100

  /** The values of a vector of cells. */
  ghost function Views(cs: seq<Cell>): (r: seq<CellData>)
    reads cs
    ensures |r| == |cs|
  {
    if cs == [] then [] else Views(cs[..|cs| - 1]) + [cs[|cs| - 1].View()]
  }

  lemma {:induction false} ViewsAt(cs: seq<Cell>)
    ensures forall k :: 0 <= k < |cs| ==> Views(cs)[k] == cs[k].View()
    decreases |cs|
  {
    if cs != [] {
      ViewsAt(cs[..|cs| - 1]);
    }
  }

  /** Erasing the head of the unscanned part of a vector. */
  lemma EraseAt<T>(kept: seq<T>, rest: seq<T>)
    requires |rest| > 0
    ensures var v := kept + rest; v[..|kept|] + v[|kept| + 1..] == kept + rest[1..]
  {
    var v := kept + rest;
    assert v[..|kept|] == kept;
    assert v[|kept| + 1..] == rest[1..];
  }

  /** Stepping past the head of the unscanned part of a vector. */
  lemma StepPast<T>(kept: seq<T>, rest: seq<T>)
    requires |rest| > 0
    ensures kept + rest == (kept + [rest[0]]) + rest[1..]
  {
    assert rest == [rest[0]] + rest[1..];
  }

  lemma ViewsFrom(cs: seq<Cell>, s: seq<CellData>)
    requires |cs| == |s| && forall k :: 0 <= k < |s| ==> cs[k].View() == s[k]
    ensures Views(cs) == s
  {
    ViewsAt(cs);
  }

  lemma {:induction false} ViewsAppend(a: seq<Cell>, b: seq<Cell>)
    ensures Views(a + b) == Views(a) + Views(b)
    decreases |b|
  {
    if b == [] {
      assert a + b == a;
    } else {
      var init := b[..|b| - 1];
      assert (a + b)[..|a + b| - 1] == a + init;
      ViewsAppend(a, init);
    }
  }

  /** Appending cells tracked in `born` to cells tracked in `repr`. */
  lemma TrackedAppend(a: seq<Cell>, b: seq<Cell>, repr: set<Cell>, born: set<Cell>)
    requires forall k :: 0 <= k < |a| ==> a[k] in repr
    requires born == set k | 0 <= k < |b| :: b[k]
    ensures forall k :: 0 <= k < |a + b| ==> (a + b)[k] in repr + born
  {
    forall k | 0 <= k < |a + b|
      ensures (a + b)[k] in repr + born
    {
      if k >= |a| {
        assert (a + b)[k] == b[k - |a|];
      }
    }
  }

  /** The vector after division, seen as values: the parents, then the children. */
  lemma DividedViews(cells: seq<Cell>, newCells: seq<Cell>, before: seq<CellData>)
    requires |cells| == |before| && forall k :: 0 <= k < |cells| ==> cells[k].View() == Parents(before)[k]
    requires |newCells| == |Children(before)|
    requires forall k :: 0 <= k < |newCells| ==> newCells[k].View() == Children(before)[k]
    ensures Views(cells + newCells) == DivideAll(before)
  {
    ViewsFrom(cells, Parents(before));
    ViewsFrom(newCells, Children(before));
    ViewsAppend(cells, newCells);
  }

  /**
   * No cell object appears twice in the vector: each cell is new to the
   * cells before it.
   */
  ghost predicate Distinct(cs: seq<Cell>)
    decreases |cs|
  {
    |cs| == 0 || (cs[|cs| - 1] !in cs[..|cs| - 1] && Distinct(cs[..|cs| - 1]))
  }

  /** Distinctness, pair by pair. */
  lemma {:induction false} DistinctPairs(cs: seq<Cell>)
    ensures Distinct(cs) <==> forall i, j :: 0 <= i < j < |cs| ==> cs[i] != cs[j]
    decreases |cs|
  {
    if |cs| > 0 {
      var init := cs[..|cs| - 1];
      DistinctPairs(init);
      assert forall i :: 0 <= i < |init| ==> init[i] == cs[i];
      assert cs[|cs| - 1] in init <==> exists i :: 0 <= i < |init| && init[i] == cs[|cs| - 1];
    }
  }

  /** In a distinct vector, cell i is no other entry. */
  lemma DistinctAt(cs: seq<Cell>, i: int)
    requires Distinct(cs) && 0 <= i < |cs|
    ensures forall k :: 0 <= k < |cs| && k != i ==> cs[k] != cs[i]
  {
    DistinctPairs(cs);
  }

  /** Appending a cell that is not yet in a distinct vector. */
  lemma DistinctSnoc(cs: seq<Cell>, c: Cell)
    requires Distinct(cs) && forall k :: 0 <= k < |cs| ==> cs[k] != c
    ensures Distinct(cs + [c])
  {
    assert (cs + [c])[..|cs|] == cs;
  }

  lemma DistinctAppend(a: seq<Cell>, b: seq<Cell>)
    requires Distinct(a) && Distinct(b)
    requires forall i, j :: 0 <= i < |a| && 0 <= j < |b| ==> a[i] != b[j]
    ensures Distinct(a + b)
  {
    DistinctPairs(a);
    DistinctPairs(b);
    DistinctPairs(a + b);
  }

  lemma DistinctErase(cs: seq<Cell>, i: int)
    requires Distinct(cs) && 0 <= i < |cs|
    ensures Distinct(cs[..i] + cs[i + 1..])
  {
    var r := cs[..i] + cs[i + 1..];
    DistinctPairs(cs);
    DistinctPairs(r);
    forall a, b | 0 <= a < b < |r|
      ensures r[a] != r[b]
    {
      var a' := if a < i then a else a + 1;
      var b' := if b < i then b else b + 1;
      assert r[a] == cs[a'] && r[b] == cs[b'];
    }
  }

  /**
   * The body of the division phase for one cell that divides: a newborn at
   * the origin's position, switched to cancer when the origin is cancerous,
   * and the origin's energy split in half between the two; the origin
   * counts one more division.
   */
  method Divide(origin: Cell) returns (newcell: Cell)
    requires Divides(origin.View())
    modifies origin
    ensures fresh(newcell)
    ensures origin.View() == Parent(old(origin.View())) && newcell.View() == Child(old(origin.View()))
  {
    var originEnergy := origin.energy;
    newcell := new Cell(origin.x, origin.y);
    if origin.state == Cancer {
      newcell.ChangeState();
    }
    newcell.SetEnergy(originEnergy / 2.0);
    origin.SetEnergy(originEnergy / 2.0);
    origin.IncrementDivisionCount();
  }

  /**
   * The state of the removal loop after `examined` cells of the original
   * vector `cells`, whose values were `before`: `kept`, the cells stepped
   * past so far, followed by the unscanned rest; kept cell k is original
   * cell idx[k], and together they hold the survivors among the first
   * `examined` values.
   */
  ghost predicate Erasing(before: seq<CellData>, cells: seq<Cell>, alive: seq<Cell>,
                          kept: seq<Cell>, idx: seq<int>, examined: int)
  {
    // bound to a name so the verifier keeps the conjunction as one fact instead of splitting it
    var ok :=
      |before| == |cells| && 0 <= examined <= |cells| &&
      alive == kept + cells[examined..] && Distinct(alive) &&
      |idx| == |kept| == |Survivors(before[..examined])| &&
      (forall a, b :: 0 <= a < b < |idx| ==> idx[a] < idx[b]) &&
      forall k :: 0 <= k < |kept| ==>
        0 <= idx[k] < examined && kept[k] == cells[idx[k]] &&
        Survivors(before[..examined])[k] == before[idx[k]];
    ok
  }

  /** `sub` is made of the entries of `cs` at the strictly increasing positions `idx`. */
  ghost predicate Picks<T>(cs: seq<T>, sub: seq<T>, idx: seq<int>)
  {
    && |idx| == |sub|
    && (forall k :: 0 <= k < |sub| ==> 0 <= idx[k] < |cs| && sub[k] == cs[idx[k]])
    && (forall a, b :: 0 <= a < b < |idx| ==> idx[a] < idx[b])
  }

  /** Erasing the cell under the cursor keeps the loop state. */
  lemma EraseOne(before: seq<CellData>, cells: seq<Cell>, alive: seq<Cell>,
                 kept: seq<Cell>, idx: seq<int>, examined: int, i: int)
    requires Erasing(before, cells, alive, kept, idx, examined) && i == |kept| < |alive|
    requires before[examined].energy <= CELL_DEATH_THRESHOLD_ENERGY
    ensures Erasing(before, cells, alive[..i] + alive[i + 1..], kept, idx, examined + 1)
  {
    SurvivorsSnoc(before, examined);
    var rest := cells[examined..];
    assert rest[1..] == cells[examined + 1..];
    assert Survivors(before[..examined + 1]) == Survivors(before[..examined]) + [];
    DistinctErase(alive, i);
    EraseAt(kept, rest);
  }

  /** Stepping past the surviving cell under the cursor keeps the loop state. */
  lemma KeepOne(before: seq<CellData>, cells: seq<Cell>, alive: seq<Cell>,
                kept: seq<Cell>, idx: seq<int>, examined: int, i: int)
    requires Erasing(before, cells, alive, kept, idx, examined) && i == |kept| < |alive|
    requires before[examined].energy > CELL_DEATH_THRESHOLD_ENERGY
    ensures Erasing(before, cells, alive, kept + [alive[i]], idx + [examined], examined + 1)
  {
    SurvivorsSnoc(before, examined);
    var rest := cells[examined..];
    assert rest[1..] == cells[examined + 1..];
    assert alive[i] == rest[0] == cells[examined];
    StepPast(kept, rest);
  }

  /** With nothing left to scan, the kept cells are all the survivors. */
  lemma EraseDone(before: seq<CellData>, cells: seq<Cell>, repr: set<Cell>,
                  alive: seq<Cell>, kept: seq<Cell>, idx: seq<int>, examined: int)
    requires before == Views(cells) && forall k :: 0 <= k < |cells| ==> cells[k] in repr
    requires Erasing(before, cells, alive, kept, idx, examined) && |kept| == |alive|
    ensures Distinct(alive) && forall k :: 0 <= k < |alive| ==> alive[k] in repr
    ensures Views(alive) == Survivors(before)
    ensures Picks(cells, alive, idx)
  {
    assert |cells[examined..]| == 0;
    assert before[..examined] == before;
    assert alive == kept;
    ViewsAt(cells);
    ViewsFrom(alive, Survivors(before));
  }

  /**
   * The removal loop: walk the vector once, erasing every cell whose energy
   * is at or below the death threshold and stepping past the others; the
   * survivors keep their order. Survivor k is the original cell object
   * idx[k], and idx is strictly increasing.
   */
  method EraseDead(cells: seq<Cell>, ghost repr: set<Cell>) returns (alive: seq<Cell>, ghost idx: seq<int>)
    requires Distinct(cells) && forall k :: 0 <= k < |cells| ==> cells[k] in repr
    ensures Distinct(alive) && forall k :: 0 <= k < |alive| ==> alive[k] in repr
    ensures Views(alive) == Survivors(Views(cells))
    ensures Picks(cells, alive, idx)
  {
    ghost var before := Views(cells);
    ViewsAt(cells);
    alive := cells;
    var i := 0;
    ghost var examined := 0;
    ghost var kept: seq<Cell> := [];
    idx := [];
    assert cells[0..] == cells;
    while i < |alive|
      invariant |kept| == i && Erasing(before, cells, alive, kept, idx, examined)
      decreases |alive| - i
    {
      assert alive[i] == cells[examined];
      assert alive[i].View() == before[examined];
      if alive[i].energy <= CELL_DEATH_THRESHOLD_ENERGY {
        EraseOne(before, cells, alive, kept, idx, examined, i);
        alive := alive[..i] + alive[i + 1..];
      } else {
        KeepOne(before, cells, alive, kept, idx, examined, i);
        kept, idx := kept + [alive[i]], idx + [examined];
        i := i + 1;
      }
      examined := examined + 1;
    }
    EraseDone(before, cells, repr, alive, kept, idx, examined);
  }

  /** The division loop's progress on values: the first i cells are parents, the rest as they were. */
  ghost predicate DividedUpTo(before: seq<CellData>, now: seq<CellData>, i: int)
  {
    // bound to a name so the verifier keeps the conjunction as one fact instead of splitting it
    var ok :=
      |now| == |before| && 0 <= i <= |before| &&
      forall k :: 0 <= k < |now| ==> now[k] == if k < i then Parents(before)[k] else before[k];
    ok
  }

  lemma DividedNext(before: seq<CellData>, now: seq<CellData>, i: int)
    requires DividedUpTo(before, now, i) && i < |before|
    ensures now[i] == before[i]
    ensures Parents(before)[i] == if Divides(before[i]) then Parent(before[i]) else before[i]
    ensures DividedUpTo(before, now[i := Parents(before)[i]], i + 1)
  {
  }

  /** The division loop's progress on the pending list: the newborns of the first i cells. */
  ghost predicate BornUpTo(before: seq<CellData>, born: seq<CellData>, i: int)
  {
    // bound to a name so the verifier keeps the conjunction as one fact instead of splitting it
    var ok := 0 <= i <= |before| && born == Children(before[..i]);
    ok
  }

  lemma BornNext(before: seq<CellData>, born: seq<CellData>, i: int)
    requires BornUpTo(before, born, i) && i < |before|
    ensures BornUpTo(before, born + if Divides(before[i]) then [Child(before[i])] else [], i + 1)
  {
    ChildrenSnoc(before, i);
  }

  lemma BornDone(before: seq<CellData>, born: seq<CellData>)
    requires BornUpTo(before, born, |before|)
    ensures born == Children(before)
  {
    assert before[..|before|] == before;
  }

  lemma DividedDone(before: seq<CellData>, now: seq<CellData>)
    requires DividedUpTo(before, now, |before|)
    ensures now == Parents(before)
  {
  }

  /** Each cell of `cs` shows the matching value of `vs`. */
  ghost predicate Shows(cs: seq<Cell>, vs: seq<CellData>)
    reads cs
  {
    |cs| == |vs| && forall k :: 0 <= k < |cs| ==> cs[k].View() == vs[k]
  }

  lemma ShowsSnoc(cs: seq<Cell>, vs: seq<CellData>, c: Cell, v: CellData)
    requires Shows(cs, vs) && c.View() == v
    ensures Shows(cs + [c], vs + [v])
  {
  }

  /**
   * The division loop: each original cell that may divide and holds more
   * than the threshold energy gets a newborn, which waits in a pending list.
   */
  method Divisions(cells: seq<Cell>) returns (newCells: seq<Cell>)
    requires Distinct(cells)
    modifies cells
    ensures Distinct(newCells) && |newCells| == |Children(old(Views(cells)))|
    ensures forall k :: 0 <= k < |newCells| ==>
      fresh(newCells[k]) && newCells[k].View() == Children(old(Views(cells)))[k]
    ensures forall k :: 0 <= k < |cells| ==> cells[k].View() == Parents(old(Views(cells)))[k]
  {
    ghost var before := Views(cells);
    ViewsAt(cells);
    newCells := [];
    ghost var born: seq<CellData> := [];
    ghost var now := before;
    for i := 0 to |cells|
      invariant BornUpTo(before, born, i)
      invariant Shows(newCells, born) && forall k :: 0 <= k < |newCells| ==> fresh(newCells[k])
      invariant Distinct(newCells)
      invariant |now| == |cells| && forall k :: 0 <= k < |cells| ==> cells[k].View() == now[k]
      invariant DividedUpTo(before, now, i)
    {
      var origin := cells[i];
      BornNext(before, born, i);
      DividedNext(before, now, i);
      assert origin.View() == before[i];
      // a cell that may not divide is skipped; one that may divides above the threshold
      if origin.CanDivide() && origin.energy > CELL_DIVISION_THRESHOLD_ENERGY {
        DistinctAt(cells, i);
        var newcell := Divide(origin);
        DistinctSnoc(newCells, newcell);
        ShowsSnoc(newCells, born, newcell, Child(before[i]));
        newCells := newCells + [newcell];
        born := born + [Child(before[i])];
      }
      now := now[i := Parents(before)[i]];
    }
    BornDone(before, born);
    DividedDone(before, now);
  }

  /**
   * The set-up loop of `main`: CELL_SIZE new normal cells with the initial
   * energy, cell k placed by `randomSetLocation` from the raw draws rawX(k)
   * and rawY(k).
   */
  method PlaceCells(rawX: nat -> nat, rawY: nat -> nat) returns (cells: seq<Cell>)
    ensures |cells| == CELL_SIZE && Distinct(cells) && Initial(Views(cells))
    ensures forall k :: 0 <= k < CELL_SIZE ==>
      fresh(cells[k]) &&
      cells[k].View() == CellData(UniformInt(rawX(k), 0, WIDTH - 1), UniformInt(rawY(k), 0, HEIGHT - 1),
                                  INITIAL_CELL_ENERGY, Normal, 0)
  {
    var placed := [];
    for i := 0 to CELL_SIZE
      invariant |placed| == i && Distinct(placed)
      invariant forall k :: 0 <= k < i ==>
        fresh(placed[k]) &&
        placed[k].View() == CellData(UniformInt(rawX(k), 0, WIDTH - 1), UniformInt(rawY(k), 0, HEIGHT - 1),
                                     INITIAL_CELL_ENERGY, Normal, 0)
    {
      var c := new Cell(UniformInt(rawX(i), 0, WIDTH - 1), UniformInt(rawY(i), 0, HEIGHT - 1));
      DistinctSnoc(placed, c);
      placed := placed + [c];
    }
    ViewsAt(placed);
    cells := placed;
  }

  class Simulation {
    var cells: seq<Cell>
    /** Every cell object the simulation has created, dead ones included. */
    ghost var Repr: set<Cell>
    const gs: Scape
    const os: Scape

    /**
     * The class invariant: two distinct, full grids with their capacities
     * and increments, and a vector of distinct cells, all tracked in Repr.
     */
    ghost predicate Valid()
      reads this
    {
      // bound to a name so the verifier keeps the conjunction as one fact instead of splitting it
      var ok :=
        gs.Valid() && os.Valid() && gs.data != os.data &&
        gs.max == MAX_GLUCOSE && gs.increment == GLUCOSE_GENERATE &&
        os.max == MAX_OXYGEN && os.increment == OXYGEN_GENERATE &&
        (forall k :: 0 <= k < |cells| ==> cells[k] in Repr) &&
        Distinct(cells);
      ok
    }

    /** The population and both grids as values. */
    ghost function Current(): World
      reads this, cells, gs.data, os.data
    {
      World(Views(cells), gs.data[..], os.data[..])
    }

    /**
     * The set-up of `main`: both landscapes seeded, then CELL_SIZE normal
     * cells, cell k placed by `randomSetLocation` from the raw draws
     * rawX(k) and rawY(k).
     */
    constructor (rawX: nat -> nat, rawY: nat -> nat)
      ensures Valid() && Seeded(Current()) && |cells| == CELL_SIZE
      ensures fresh(Repr) && fresh(gs.data) && fresh(os.data)
      ensures forall k :: 0 <= k < CELL_SIZE ==>
        cells[k].x == UniformInt(rawX(k), 0, WIDTH - 1) && cells[k].y == UniformInt(rawY(k), 0, HEIGHT - 1)
    {
      var glucose := new Scape(MAX_GLUCOSE, GLUCOSE_GENERATE);
      var oxygen := new Scape(MAX_OXYGEN, OXYGEN_GENERATE);
      ghost var g, o := glucose.data[..], oxygen.data[..];
      var placed := PlaceCells(rawX, rawY);
      gs, os, cells := glucose, oxygen, placed;
      Repr := set c | c in placed;
      new;
      assert gs.data[..] == g && os.data[..] == o;
    }

    /** Move phase: every cell moves once, in population order. */
    method MoveCells(moves: nat -> MoveDraw)
      requires Valid()
      modifies Repr
      ensures Valid()
      ensures Current() == old(Current()).(cells := MoveAll(old(Views(cells)), moves))
    {
      ghost var before := Views(cells);
      ViewsAt(cells);
      for i := 0 to |cells|
        invariant forall k :: 0 <= k < i ==> cells[k].View() == MoveCell(before[k], moves(k))
        invariant forall k :: i <= k < |cells| ==> cells[k].View() == before[k]
      {
        DistinctAt(cells, i);
        var _ := cells[i].Move(moves(i));
      }
      ViewsFrom(cells, MoveAll(before, moves));
    }

    /**
     * Division phase: the newborns of the original cells are appended once
     * every original has been seen.
     */
    method DivideCells()
      requires Valid()
      modifies this, Repr
      ensures Valid() && fresh(Repr - old(Repr))
      ensures Current() == old(Current()).(cells := DivideAll(old(Views(cells))))
    {
      ghost var before, grids := Views(cells), (gs.data[..], os.data[..]);
      var newCells := Divisions(cells);
      assert (gs.data[..], os.data[..]) == grids;
      DistinctAppend(cells, newCells);
      DividedViews(cells, newCells, before);
      ghost var born := set k | 0 <= k < |newCells| :: newCells[k];
      TrackedAppend(cells, newCells, Repr, born);
      cells := cells + newCells;
      Repr := Repr + born;
      assert Views(cells) == DivideAll(before);
    }

    /** Metabolism phase: every cell, newborns included, metabolizes once, in population order. */
    method MetabolizeCells()
      requires Valid() && OnGrid(Views(cells))
      modifies Repr, gs.data, os.data
      ensures Valid()
      ensures Current() == MetabolizeAll(old(Views(cells)), old(gs.data[..]), old(os.data[..]))
    {
      ghost var before := Views(cells);
      ViewsAt(cells);
      ghost var g0, o0 := gs.data[..], os.data[..];
      ghost var fed := World([], g0, o0);
      for i := 0 to |cells|
        invariant fed == MetabolizeAll(before[..i], g0, o0)
        invariant gs.data[..] == fed.glucose && os.data[..] == fed.oxygen
        invariant forall k :: 0 <= k < i ==> cells[k].View() == fed.cells[k]
        invariant forall k :: i <= k < |cells| ==> cells[k].View() == before[k]
      {
        var c := cells[i];
        assert before[..i + 1] == before[..i] + [before[i]];
        MetabolizeAllSnoc(before[..i], before[i], g0, o0);
        DistinctAt(cells, i);
        c.Metabolize(gs, os);
        fed := World(fed.cells + [c.View()], gs.data[..], os.data[..]);
      }
      assert before[..|cells|] == before;
      ViewsFrom(cells, fed.cells);
    }

    /** Removal of dead cells from the population vector. */
    method RemoveDeadCells()
      requires Valid()
      modifies this
      ensures Valid() && Repr == old(Repr)
      ensures Current() == old(Current()).(cells := Survivors(old(Views(cells))))
    {
      var alive;
      ghost var idx;
      alive, idx := EraseDead(cells, Repr);
      cells := alive;
    }

    /** Mutation phase: every surviving cell draws once, in population order. */
    method MutateCells(fires: nat -> bool)
      requires Valid()
      modifies Repr
      ensures Valid()
      ensures Current() == old(Current()).(cells := MutateAll(old(Views(cells)), fires))
    {
      ghost var before := Views(cells);
      ViewsAt(cells);
      for i := 0 to |cells|
        invariant forall k :: 0 <= k < i ==> cells[k].View() == Mutated(before[k], fires(k))
        invariant forall k :: i <= k < |cells| ==> cells[k].View() == before[k]
      {
        DistinctAt(cells, i);
        cells[i].Mutate(fires(i));
      }
      ViewsFrom(cells, MutateAll(before, fires));
    }

    /** Both landscapes regenerate. */
    method GenerateMaterials()
      requires Valid()
      modifies gs.data, os.data
      ensures Valid()
      ensures Current() == old(Current()).(glucose := Regenerate(old(gs.data[..]), GLUCOSE_GENERATE, MAX_GLUCOSE),
                                           oxygen := Regenerate(old(os.data[..]), OXYGEN_GENERATE, MAX_OXYGEN))
    {
      gs.Generate();
      os.Generate();
    }

    /** The first half of a step: the phases that move, multiply and feed the cells. */
    method Grow(moves: nat -> MoveDraw)
      requires Valid() && OnGrid(Views(cells))
      modifies this, Repr, gs.data, os.data
      ensures Valid() && fresh(Repr - old(Repr))
      ensures Current() == MetabolizeAll(DivideAll(MoveAll(old(Views(cells)), moves)), old(gs.data[..]), old(os.data[..]))
    {
      ghost var cs0 := Views(cells);
      MoveCells(moves);
      ghost var cs1 := MoveAll(cs0, moves);
      assert Views(cells) == cs1 && OnGrid(cs1);
      DivideCells();
      ghost var cs2 := DivideAll(cs1);
      assert Views(cells) == cs2 && OnGrid(cs2);
      MetabolizeCells();
    }

    /** The second half of a step: the dead are removed, the living mutate, the landscapes regenerate. */
    method Turnover(fires: nat -> bool)
      requires Valid()
      modifies this, Repr, gs.data, os.data
      ensures Valid() && Repr == old(Repr)
      ensures Current() == World(MutateAll(Survivors(old(Views(cells))), fires),
                                 Regenerate(old(gs.data[..]), GLUCOSE_GENERATE, MAX_GLUCOSE),
                                 Regenerate(old(os.data[..]), OXYGEN_GENERATE, MAX_OXYGEN))
    {
      RemoveDeadCells();
      MutateCells(fires);
      GenerateMaterials();
    }

    /** One pass of the main loop's body, output aside. */
    method Step(moves: nat -> MoveDraw, fires: nat -> bool)
      requires Valid() && OnGrid(Views(cells))
      modifies this, Repr, gs.data, os.data
      ensures Valid() && fresh(Repr - old(Repr))
      ensures Current() == StepWorld(old(Current()), moves, fires)
    {
      Grow(moves);
      Turnover(fires);
    }

    /**
     * The state of `main`'s loop once `done` steps have run along `trace`:
     * the keeper is set to MAX_STEP and about to run step done + 1, and the
     * world is entry `done` of the trace.
     */
    ghost predicate Stepped(keeper: StepKeeper, trace: seq<World>, done: nat)
      reads this, keeper, cells, gs.data, os.data
    {
      // bound to a name so the verifier keeps the conjunction as one fact instead of splitting it
      var ok :=
        Valid() && |trace| == MAX_STEP + 1 && done <= MAX_STEP &&
        keeper.maxStep == MAX_STEP && keeper.step == done + 1 &&
        Current() == trace[done];
      ok
    }

    /**
     * One pass of `main`'s loop body once `done` steps have run: step
     * done + 1, with the draws moves(done + 1) and fires(done + 1), after
     * which the keeper advances.
     */
    method Iterate(keeper: StepKeeper, ghost trace: seq<World>, ghost done: nat,
                   moves: nat -> nat -> MoveDraw, fires: nat -> nat -> bool)
      returns (running: bool)
      requires Stepped(keeper, trace, done) && IsRun(trace, moves, fires) && done < MAX_STEP
      modifies this, Repr, gs.data, os.data, keeper
      ensures Stepped(keeper, trace, done + 1) && fresh(Repr - old(Repr))
      ensures running <==> done + 1 < MAX_STEP
    {
      assert trace[done + 1] == NextWorld(trace[done], done, moves, fires);
      Step(moves(keeper.step), fires(keeper.step));
      ghost var w := Current();
      running := keeper.Loop();
      assert Current() == w;
    }

    /**
     * `main`'s loop driven by a step keeper set to MAX_STEP: the keeper
     * runs steps 1 to MAX_STEP, step s with the draws moves(s) and
     * fires(s), so the world passes through the entries of `trace` in turn.
     */
    method RunSteps(keeper: StepKeeper, ghost trace: seq<World>,
                    moves: nat -> nat -> MoveDraw, fires: nat -> nat -> bool)
      requires Valid() && |trace| == MAX_STEP + 1 && IsRun(trace, moves, fires) && Current() == trace[0]
      requires keeper.step == 0 && keeper.maxStep == MAX_STEP
      modifies this, Repr, gs.data, os.data, keeper
      ensures Valid() && fresh(Repr - old(Repr))
      ensures Current() == trace[MAX_STEP]
    {
      var running := keeper.Loop();
      ghost var done: nat := 0;
      while running
        invariant Stepped(keeper, trace, done) && fresh(Repr - old(Repr))
        invariant running <==> done < MAX_STEP
        decreases MAX_STEP - done
      {
        running := Iterate(keeper, trace, done, moves, fires);
        done := done + 1;
      }
    }

    /**
     * The rest of `main` after the set-up: a step keeper limited to
     * MAX_STEP drives the loop; the world ends as `RunWorld` of the initial
     * one and, when that one satisfies the simulation's invariant, so does
     * the final one.
     */
    method Run(moves: nat -> nat -> MoveDraw, fires: nat -> nat -> bool)
      requires Valid() && OnGrid(Views(cells))
      modifies this, Repr, gs.data, os.data
      ensures Valid() && fresh(Repr - old(Repr))
      ensures Current() == RunWorld(old(Current()), MAX_STEP, moves, fires)
      ensures old(WorldValid(Current())) ==> WorldValid(Current())
    {
      ghost var trace := Trace(Current(), MAX_STEP, moves, fires);
      var keeper := new StepKeeper();
      keeper.SetMaxStep(MAX_STEP);
      RunSteps(keeper, trace, moves, fires);
      if old(WorldValid(Current())) {
        RunPreservesValid(old(Current()), MAX_STEP, moves, fires);
      }
    }
  }

  /**
   * `main` without its output: set up the landscapes and CELL_SIZE cells
   * from the raw placement draws, then run MAX_STEP steps. The run starts
   * from the seeded world, ends at `RunWorld` of it, and keeps the
   * simulation's invariant.
   */
  method Simulate(rawX: nat -> nat, rawY: nat -> nat, moves: nat -> nat -> MoveDraw, fires: nat -> nat -> bool)
    returns (sim: Simulation, ghost start: World)
    ensures Seeded(start) && WellFormed(start) && |start.cells| == CELL_SIZE
    ensures forall k :: 0 <= k < CELL_SIZE ==>
      start.cells[k].x == UniformInt(rawX(k), 0, WIDTH - 1) && start.cells[k].y == UniformInt(rawY(k), 0, HEIGHT - 1)
    ensures sim.Valid() && sim.Current() == RunWorld(start, MAX_STEP, moves, fires)
    ensures WorldValid(sim.Current())
  {
    sim := new Simulation(rawX, rawY);
    start := sim.Current();
    ViewsAt(sim.cells);
    SeededWorldValid(start);
    sim.Run(moves, fires);
  }
}

=== FILE: steps.dfy ===
/** The step counter that drives the main loop and gates periodic output. */
module Steps {
  import opened Randomness

  /**
   * `StepKeeper::isInterval` on a step number: true when the step is a
   * multiple of the interval (C++ `%`, zero remainder).
   */
  predicate IsIntervalStep(step: int, interval: int)
    requires interval != 0
  {
    TruncRem(step, interval) == 0
  }

  /** Euclidean division is unique: q * b + r with 0 <= r < b leaves remainder r. */
  lemma RemainderOfMultiplePlus(q: int, b: int, r: int)
    requires b > 0 && 0 <= r < b
    ensures (q * b + r) % b == r
  {
    var a := q * b + r;
    var t := a / b - q;
    assert b * t == r - a % b;
  }

  /**
   * From step 0 on, an interval of n > 0 holds on the multiples of n and on
   * no step in between: once every n steps. An interval of 1 holds at every step.
   */
  lemma IntervalIsPeriodic(k: nat, d: int, interval: int)
    requires interval > 0 && 0 <= d < interval
    ensures IsIntervalStep(k * interval + d, interval) <==> d == 0
    ensures IsIntervalStep(k, 1)
  {
    RemainderOfMultiplePlus(k, interval, d);
    RemainderOfMultiplePlus(k, 1, 0);
  }

  class StepKeeper {
    var step: int
    var maxStep: int

    constructor ()
      ensures step == 0 && maxStep == 0
    {
      step := 0;
      maxStep := 0;
    }

    method SetMaxStep(m: int)
      modifies this
      ensures step == old(step) && maxStep == m
    {
      maxStep := m;
    }

    method Proceed()
      modifies this
      ensures step == old(step) + 1 && maxStep == old(maxStep)
    {
      step := step + 1;
    }

    /** `StepKeeper::loop`: advance, then report whether the new step is within the maximum. */
    method Loop() returns (running: bool)
      modifies this
      ensures step == old(step) + 1 && maxStep == old(maxStep)
      ensures running <==> step <= maxStep
    {
      Proceed();
      if step <= maxStep {
        running := true;
      } else {
        running := false;
      }
    }

    /** `StepKeeper::isInterval`. */
    predicate IsInterval(interval: int)
      requires interval != 0
      reads this
    {
      IsIntervalStep(step, interval)
    }
  }
}
